=== FILE: README.md ===
# Overlay state machines of the Microdata Refinement Simulator

This project models the two small state machines in the overlay layer of the browser diorama. Both are written in TypeScript.

- **The music player widget** (`MusicPlayerWidget`). It has two flags, `isPlaying` and `isEnabled`, and an audio element whose `play()` may be refused by the browser's autoplay policy. It shows an error label fed by the audio element's `error` and `canplay` events. It also arms two one-shot window listeners (`click`, `keydown`) that retry playback on the first user gesture.
- **The overlay controller** (`OverlayController`). It mirrors the host application's `devMode` flag and projects it onto the music player, the GitHub star button and the dev-mode button. It mounts the overlay into a mount node and detaches it on `destroy`.

Each component is an immutable Dafny record with one pure function per event:

- `music_player.dfy` (module `MusicPlayer`) holds the widget state and its transitions.
- `music_player_traces.dfy` (module `MusicPlayerTraces`) holds the widget's event traces and the lemmas over them.
- `overlay_controller.dfy` (module `OverlayController`) holds the controller state and its transitions.
- `overlay_traces.dfy` (module `OverlayTraces`) holds the controller's event traces and lemmas.
- `options.dfy` (module `Options`) holds the `Option` type.

Outside collaborators are parameters:

- **The browser's decision on a `play()` call.** Every transition that may issue a play attempt takes an `allowed` flag. A play attempt always increments a counter. It clears `paused` at once when allowed and leaves `paused` unchanged when refused, which matches how an HTML media element handles a refused `play()`.
- **The host application** (`getDevMode()`, `toggleDevMode()`). It is an oracle: `Init` and `HandleToggleDevMode` take the value it returned, whatever that value is.
- **DOM nodes.** They are natural-number identities. The mount node is the sequence of its children. The controller keeps a log, `known`, of every identity it has created or seen. The log holds the initial children, every child set by foreign code, and every overlay. `document.createElement` yields an identity that is not in the log and not a current child (`FreshNode`).
- **Playback advancing and foreign DOM changes.** These are environment events: `MusicPlayer.Progress` and `OverlayController.ReplaceMountChildren`.

The trace functions take a `RetryPolicy`. `AsWritten` runs the retry handler as the source has it. `Guarded` adds the `isEnabled` check described under Findings.

## Model

| member | source | states |
|---|---|---|
| MusicPlayer.Construct | src/ui/MusicPlayerWidget.ts:134-137 | A new widget is playing and enabled, visible (`flex`), labelled Playing/Stop, with the error label hidden. It has issued exactly one play attempt, has both retry registrations and the audio handlers live, and is not yet attached. Its audio is paused exactly when autoplay was refused. |
| MusicPlayer.UpdateUiState | src/ui/MusicPlayerWidget.ts:237-242 | Status text is Playing/Paused and the button label Stop/Play according to `isPlaying` alone. Nothing else changes. |
| MusicPlayer.ApplyPlaybackState | src/ui/MusicPlayerWidget.ts:215-235 | When disabled, the audio ends up paused at position 0 with no play attempt, whatever `isPlaying` is. When enabled and playing, exactly one play attempt is issued and the position is kept. When enabled and stopped, the audio is paused and rewound. Texts are refreshed in every case. |
| MusicPlayer.SetEnabled | src/ui/MusicPlayerWidget.ts:140-147 | Setting the current value changes nothing at all. Otherwise the flag and the container display (`flex`/`none`) follow the argument. The status text and button label are refreshed from `isPlaying`. Enabling a playing widget issues exactly one play attempt, which starts playback from the current position when the browser allows it. Disabling, or enabling a stopped widget, pauses and rewinds with no play attempt. "Disabled or stopped means silent" is preserved. |
| MusicPlayer.TogglePlayback | src/ui/MusicPlayerWidget.ts:210-213 | Flips `isPlaying` and refreshes the texts, even when disabled. Going to stopped, or being disabled, leaves the audio paused at 0. Going to playing while enabled issues one play attempt. |
| MusicPlayer.ErrorMessage | src/ui/MusicPlayerWidget.ts:164-185 | Every `audio.error` value maps to one of six fixed messages. Each message appears exactly for its own case: "Unknown error" exactly when there is no error object, "Audio playback error" exactly for a code outside the four recognised ones, and each recognised code its own text. |
| MusicPlayerTraces.ErrorMessageOfCause | src/ui/MusicPlayerWidget.ts:166-187 | The message, and the label text "Error: " + message, agree with a separately written table from cause to text. |
| MusicPlayer.CanPlay | src/ui/MusicPlayerWidget.ts:159-162 | While the handler is bound, `canplay` hides and empties the error label and touches nothing else. After unbinding it changes nothing. |
| MusicPlayer.AudioError | src/ui/MusicPlayerWidget.ts:164-190 | While the handler is bound, a media error shows the label inline with "Error: " followed by the message for that error, and touches nothing else. After unbinding it changes nothing. |
| MusicPlayer.HandleInteraction | src/ui/MusicPlayerWidget.ts:193-199 | The retry handler issues a play attempt exactly when `isPlaying` holds and the audio is paused. It does not consult `isEnabled`. |
| MusicPlayer.HandleInteractionGuarded | src/ui/MusicPlayerWidget.ts:193-199 | The corrected handler also requires `isEnabled`. It never touches a disabled widget and preserves "disabled or stopped means silent". |
| MusicPlayer.WindowClick | src/ui/MusicPlayerWidget.ts:192-208 | A window click consumes the click registration, leaving the keydown one alone. When the registration was already gone it changes nothing. Otherwise it runs the retry handler once. |
| MusicPlayer.WindowKeydown | src/ui/MusicPlayerWidget.ts:192-208 | The same as a click, for the keydown registration. |
| MusicPlayer.Destroy | src/ui/MusicPlayerWidget.ts:244-252 | Unbinds the audio handlers, cancels both retry registrations, and pauses and rewinds without a play attempt. It removes the element from a parent exactly when it had one. Flags, texts, display and error label are unchanged. |
| MusicPlayerTraces.SetEnabledIdempotent | src/ui/MusicPlayerWidget.ts:140-146 | `setEnabled(b)` twice equals `setEnabled(b)` once, whatever the play outcomes. |
| MusicPlayerTraces.ToggleTwice | src/ui/MusicPlayerWidget.ts:210-234 | From playing and enabled, a toggle stops and rewinds with no new attempt. A second toggle restores every flag and text and plays again from position 0 with exactly one new attempt, so there is no resume-from-position. |
| MusicPlayerTraces.ErrorMessageIdentifiesCause | src/ui/MusicPlayerWidget.ts:168-184 | Two errors get the same message if and only if they have the same cause. The causes are the four recognised codes, any other code, and no error object. |
| MusicPlayerTraces.CanPlayClearsError | src/ui/MusicPlayerWidget.ts:159-190 | An error followed by `canplay` gives the same state as `canplay` alone, with the label hidden and empty. |
| MusicPlayerTraces.DestroyTwice | src/ui/MusicPlayerWidget.ts:244-252 | A second `destroy` removes nothing and leaves the state unchanged. |
| MusicPlayerTraces.ClickFiresAtMostOnce | src/ui/MusicPlayerWidget.ts:201 | In any event trace, the click registration runs the handler at most once, and never once it is spent or cancelled. |
| MusicPlayerTraces.KeydownFiresAtMostOnce | src/ui/MusicPlayerWidget.ts:202 | In any event trace, the keydown registration runs the handler at most once, and never once it is spent or cancelled. |
| MusicPlayerTraces.DestroyedNeverRetries | src/ui/MusicPlayerWidget.ts:244-246 | After `destroy`, neither registration fires in any later trace. |
| MusicPlayerTraces.ClicksIssueAtMostOneAttempt | src/ui/MusicPlayerWidget.ts:192-201 | Any number of window clicks issues at most one play attempt, and none once the click registration is spent. |
| MusicPlayerTraces.AutoplayRetryScenario | src/ui/MusicPlayerWidget.ts:192-208 | Autoplay is refused at construction. The first click retries (attempt 2) and is refused again, so the audio stays paused. A second click still issues nothing, because the click registration removed itself. A keydown then retries once more (attempt 3), because that registration is independent. |
| MusicPlayerTraces.RunKeepsUiConsistent | src/ui/MusicPlayerWidget.ts:237-242 | Along every trace, the display, texts and error label stay consistent with the two flags. The label is either hidden and empty or shown with one of the fixed texts. |
| MusicPlayerTraces.StepKeepsQuiet | src/ui/MusicPlayerWidget.ts:215-235 | Every event preserves "disabled or stopped means paused at 0", except a retry registration firing on a disabled widget. Under the guarded handler, that event preserves it too. |
| MusicPlayerTraces.RunKeepsQuiet | src/ui/MusicPlayerWidget.ts:194 | As written, the invariant holds along every trace in which no retry fires while the widget is disabled. |
| MusicPlayerTraces.GuardedRunKeepsQuiet | src/ui/MusicPlayerWidget.ts:194 | With the guarded handler, the invariant holds along every trace. |
| MusicPlayerTraces.RetryWakesDisabledWidget | src/ui/MusicPlayerWidget.ts:194 | A reachable counterexample: construct with autoplay refused, disable, then click. The hidden, disabled widget ends up playing. |
| MusicPlayerTraces.GuardedRetryStaysSilent | src/ui/MusicPlayerWidget.ts:194 | The same sequence with the guarded handler consumes the registration and stays paused. |
| OverlayController.Construct | src/ui/OverlayController.ts:12-25 | A new controller is out of dev mode with no overlay, header or dev button. The mount node is untouched. Its music player has already issued its first play attempt. |
| OverlayController.FreshNode | src/ui/OverlayController.ts:46 | The created element differs from every identity it is checked against. `Render` checks it against the log of every node created or seen and against the mount node's children. |
| OverlayController.RemoveNode | src/ui/OverlayController.ts:37 | `removeChild` drops exactly that node and keeps every other child. |
| OverlayController.RemoveNodeKeepsOrder | src/ui/OverlayController.ts:37 | Removing a child that occurs once leaves the children before and after it in their order. |
| OverlayController.ToggleGitHubButtonVisibility | src/ui/OverlayController.ts:88-91 | The GitHub button shows `inline-flex` when asked to show and `none` otherwise. Nothing else changes. |
| OverlayController.UpdateDevButtonStyle | src/ui/OverlayController.ts:93-98 | Class `active` is present exactly in dev mode. The label is untouched. |
| OverlayController.SyncUiState | src/ui/OverlayController.ts:63-70 | Afterwards the music player is enabled exactly outside dev mode, and the GitHub display is `inline-flex` or `none` accordingly. The dev button, if any, reads Dev Mode ON or Dev Mode with `active` matching. The player is exactly the old player after `setEnabled(!devMode)`, so a mode change never re-arms its retries or touches its label. It is untouched when its flag already agreed. Nothing outside these widgets changes. |
| OverlayController.Render | src/ui/OverlayController.ts:45-61 | Afterwards the mount node has exactly one child, a newly created overlay that differs from every earlier node, including detached earlier overlays. Every previous child is gone. The header and dev button exist. The player is exactly the old player, attached, after `setEnabled(!devMode)`, so nothing else about it changes. The UI is synced. |
| OverlayController.Init | src/ui/OverlayController.ts:27-30 | `devMode` becomes the host's `getDevMode()` answer. The mount node then holds only the rendered, synced, newly created overlay. The player is the old one, attached, after `setEnabled(!answer)`. |
| OverlayController.HandleToggleDevMode | src/ui/OverlayController.ts:106-110 | `devMode` becomes exactly the host's `toggleDevMode()` answer, not a local negation, and the UI is resynced. The player is exactly the old one after `setEnabled(!answer)`. The mount node, overlay and identity log are untouched. When the host refuses to flip, a synced controller is unchanged. |
| OverlayController.Destroy | src/ui/OverlayController.ts:32-43 | Destroys the player, then the GitHub button. The player ends detached, unbound, without retry registrations, and paused at 0. It removes the overlay from the mount node exactly when the mount node is its parent, keeps every other child, and clears all three element references. |
| OverlayTraces.SyncedViewDeterminedByDevMode | src/ui/OverlayController.ts:63-70 | Two synced controllers in the same mode, both rendered or both not, show the same view. |
| OverlayTraces.SyncIdempotent | src/ui/OverlayController.ts:63-70 | A second `syncUiState` in the same mode changes nothing, neither the UI nor the player state, from any state. |
| OverlayTraces.FaithfulDoubleToggle | src/ui/OverlayController.ts:106-110 | With a host that really flips, one toggle changes the view and a second restores both the view and the mode. |
| OverlayTraces.RefusedToggleChangesNothing | src/ui/OverlayController.ts:106-110 | A host answering the current mode leaves a synced controller exactly as it was. |
| OverlayTraces.DestroyTwice | src/ui/OverlayController.ts:36-38 | A second `destroy` removes nothing from the mount node. |
| OverlayTraces.DestroyAfterReplacement | src/ui/OverlayController.ts:36-38 | After foreign code replaced the mount node's children, `destroy` removes nothing and leaves the new children in place. |
| OverlayTraces.DestroyKeepsOtherChildren | src/ui/OverlayController.ts:36-38 | When the overlay hangs under the mount node, `destroy` removes it and the other children keep their order. |
| OverlayTraces.ConstructThenInit | src/ui/OverlayController.ts:16-30 | A new controller followed by `init` leaves the mount node holding only a fresh overlay. The view is the projection of the host's mode. The player has issued only its construction-time attempt: in dev mode it is paused at 0, otherwise it keeps that attempt's outcome. |
| OverlayTraces.StaleOverlayIsNotRemoved | src/ui/OverlayController.ts:36-46 | Consider `init`, then foreign code emptying the mount node, then `init` again. The second overlay differs from the first. If foreign code then puts the first overlay back, `destroy` removes nothing and leaves it in place. |
| OverlayTraces.InitThenDestroy | src/ui/OverlayController.ts:27-43 | `init` followed by `destroy` detaches the overlay and leaves the mount node empty. |
| OverlayTraces.RunKeepsSynced | src/ui/OverlayController.ts:63-70 | Once synced, the overlay stays a projection of `devMode` through any sequence of controller calls, foreign replacements and user events on the player. |
| OverlayTraces.RunAdoptsHostAnswer | src/ui/OverlayController.ts:106-110 | After any trace, `devMode` is the host's most recent answer (from `init` or a toggle), or the initial mode if the host never answered. |
| OverlayTraces.GuardedRunKeepsMusicQuiet | src/ui/OverlayController.ts:63-64 | With the guarded retry handler, the embedded player stays silent while disabled (in dev mode) or stopped, through any trace. |

## Left out

- `src/lib/ThreeRenderer.ts`, `src/lib/MainScene.ts`, `src/models/three.ts` and `src/main.ts` are not part of this model. They are scene construction over three.js, floating-point camera constants and bootstrap wiring, and they carry no state machine of their own.
- Inline CSS: colours, spacing, the indicator dot's colour and glow, hover colour changes, and the clearing of the dev button's inline colours are presentation only.
- The `stopPropagation` and `preventDefault` calls are not modelled. They only matter because the clicks they stop never reach the window registrations, and the trace model gets the same effect by keeping window clicks and button clicks as separate events.
- `console.error` logging is not modelled.
- `audio.load()` and the audio source, `loop` and `preload` settings are not modelled. The fresh element is taken to be paused at position 0.
- Promise timing is reduced to the `allowed` flag, decided when `play()` is called. A promise that is rejected later, for example aborted by a following `pause()`, has no effect on the modelled state. The same holds for the source, which only logs such a rejection.
- Real audio decoding and network access are not modelled. `MusicPlayer.Progress` stands for the browser moving a playing element's position.
- MusicPlayer.Audio: `currentTime` is a natural-number position rather than a floating-point number of seconds. Only "is it zero" matters to the widget.
- `GitHubStarButton` and `ThreeApp` are not part of this model. The button is its inline `display`, starting from a value given to `OverlayController.Construct`, plus a destroyed flag. The host is the oracle parameters of `Init` and `HandleToggleDevMode`.
- `createDevButton` (src/ui/OverlayController.ts:72-86) is modelled only through its effect. Its click handler is the `ToggleDevMode` event of `OverlayTraces`.
- `bindAudioEvents` and `unbindAudioEvents` are modelled as the single `audioListening` flag.
- Behaviour when `init` runs twice is modelled as the source has it: a second render replaces the first overlay. Only `init`'s contract speaks about it.
- The code arms two independent one-shot registrations (click, keydown), so a page can retry twice. The retry handler does not check `isEnabled` (see Findings).

## Findings

| source | as written | input that shows it | evidently intended | confidence | as-written member | corrected member |
|---|---|---|---|---|---|---|
| src/ui/MusicPlayerWidget.ts:194 | The one-shot retry plays whenever `isPlaying` holds and the audio is paused, without checking `isEnabled`. | Autoplay is refused at construction, then `setEnabled(false)` runs (dev mode on; the dev button's own click does not reach the window), then the user clicks anywhere on the page. The hidden, disabled widget starts playing. | A disabled widget stays paused at position 0: the retry should also require `isEnabled`. | medium, not executed | MusicPlayerTraces.RetryWakesDisabledWidget | MusicPlayerTraces.GuardedRunKeepsQuiet |

The as-written handler is `MusicPlayer.HandleInteraction`, and the trace semantics use it under `RetryPolicy.AsWritten`. The corrected handler is `MusicPlayer.HandleInteractionGuarded`, used under `RetryPolicy.Guarded`. Both the player traces (`MusicPlayerTraces.Run`) and the overlay traces (`OverlayTraces.Run`) take the policy, and `OverlayTraces.GuardedRunKeepsMusicQuiet` proves dev mode silent under the corrected handler.

=== FILE: music_player.dfy ===
/**
 A functional model of the music player widget (src/ui/MusicPlayerWidget.ts).

 The widget is an immutable record; every event the class reacts to is a pure
 transition function. The DOM is reduced to the fields the widget writes:
 the container's `display`, the status and button texts, the error label and
 whether the container still has a parent. The audio element is reduced to
 `paused`, `currentTime` and a count of issued `play()` calls.

 `play()` returns a promise the widget never awaits. Following the HTML media
 element semantics, a play attempt either clears `paused` at once (playback is
 allowed) or is rejected and leaves `paused` as it was (autoplay policy); the
 `allowed` parameter of every transition that may issue a play attempt is that
 nondeterministic outcome.
 */
module MusicPlayer {
  import opened Options

  /** The abstract audio element. */
  datatype Audio = Audio(paused: bool, currentTime: nat, playAttempts: nat)

  /** The inline error label: whether it is displayed, and its text content. */
  datatype ErrorLabel = ErrorLabel(shown: bool, text: string)

  /** The `error` property of the audio element when it is not null. */
  datatype MediaError = MediaError(code: int)

  datatype Widget = Widget(
    isPlaying: bool,
    isEnabled: bool,
    audio: Audio,
    display: string,          // inline `display` of the widget's container
    statusText: string,
    buttonText: string,
    errorLabel: ErrorLabel,
    audioListening: bool,     // the `canplay` and `error` handlers are bound
    clickRetry: bool,         // the one-shot window `click` registration is live
    keydownRetry: bool,       // the one-shot window `keydown` registration is live
    attached: bool            // the container has a parent element
  )

  /** Result of `destroy`: the new state and whether the container was removed
      from a parent. */
  datatype Teardown = Teardown(after: Widget, removed: bool)

  // The error codes of the MediaError interface of the HTML Living Standard.
  const MEDIA_ERR_ABORTED: int := 1
  const MEDIA_ERR_NETWORK: int := 2
  const MEDIA_ERR_DECODE: int := 3
  const MEDIA_ERR_SRC_NOT_SUPPORTED: int := 4

  /** The six texts the error label can carry next to "Error: ". */
  const KnownMessages: set<string> := {
    "Audio loading aborted",
    "Network error loading audio",
    "Audio decode error",
    "Audio format not supported or file not found",
    "Audio playback error",
    "Unknown error"
  }

  function DisplayFor(enabled: bool): string {
    if enabled then "flex" else "none"
  }

  function StatusText(playing: bool): string {
    if playing then "Playing" else "Paused"
  }

  function ButtonText(playing: bool): string {
    if playing then "Stop" else "Play"
  }

  /** What the label shows for a given `audio.error` value. */
  function LabelText(err: Option<MediaError>): string {
    "Error: " + ErrorMessage(err)
  }

  /** Everything the widget shows agrees with its two flags, and the error
      label is either hidden and empty or shown with one of the fixed texts. */
  ghost predicate UiConsistent(w: Widget) {
    && w.display == DisplayFor(w.isEnabled)
    && w.statusText == StatusText(w.isPlaying)
    && w.buttonText == ButtonText(w.isPlaying)
    && (if w.errorLabel.shown
        then exists m :: m in KnownMessages && w.errorLabel.text == "Error: " + m
        else w.errorLabel.text == "")
  }

  /** Disabled or stopped means silent and rewound to the start. */
  ghost predicate Quiet(w: Widget) {
    (!w.isEnabled || !w.isPlaying) ==> w.audio.paused && w.audio.currentTime == 0
  }

  // ---------------------------------------------------------------------------
  // The audio element

  /** One `audio.play()` call; `allowed` is whether the browser lets it start. */
  function Play(a: Audio, allowed: bool): (r: Audio)
    ensures r.playAttempts == a.playAttempts + 1
    ensures r.currentTime == a.currentTime
    ensures !r.paused <==> !a.paused || allowed
  {
    Audio(a.paused && !allowed, a.currentTime, a.playAttempts + 1)
  }

  /** `audio.pause()` followed by `audio.currentTime = 0`. */
  function PauseAndRewind(a: Audio): (r: Audio)
    ensures r.paused && r.currentTime == 0
    ensures r.playAttempts == a.playAttempts
  {
    Audio(true, 0, a.playAttempts)
  }

  // ---------------------------------------------------------------------------
  // Construction and the private helpers

  /** The freshly created element tree, before the constructor's last four
      statements: flags at their initial values, a new audio element
      (paused at position zero), the label hidden, nothing bound yet. */
  function Created(): Widget {
    Widget(
      isPlaying := true,
      isEnabled := true,
      audio := Audio(true, 0, 0),
      display := "flex",
      statusText := "",
      buttonText := "",
      errorLabel := ErrorLabel(false, ""),
      audioListening := false,
      clickRetry := false,
      keydownRetry := false,
      attached := false)
  }

  /** `updateUiState`: the status text and button label follow `isPlaying`. */
  function UpdateUiState(w: Widget): (r: Widget)
    ensures r.statusText == (if w.isPlaying then "Playing" else "Paused")
    ensures r.buttonText == (if w.isPlaying then "Stop" else "Play")
    ensures r.(statusText := w.statusText, buttonText := w.buttonText) == w
  {
    w.(statusText := StatusText(w.isPlaying), buttonText := ButtonText(w.isPlaying))
  }

  /** `applyPlaybackState`: refresh the texts, then let a disabled widget pause
      and rewind whatever `isPlaying` says; an enabled one plays or pauses
      and rewinds according to `isPlaying`. */
  function ApplyPlaybackState(w: Widget, allowed: bool): (r: Widget)
    ensures r.statusText == StatusText(w.isPlaying) && r.buttonText == ButtonText(w.isPlaying)
    ensures !w.isEnabled ==>
      r.audio.paused && r.audio.currentTime == 0 && r.audio.playAttempts == w.audio.playAttempts
    ensures w.isEnabled && w.isPlaying ==>
      r.audio.playAttempts == w.audio.playAttempts + 1 && r.audio.currentTime == w.audio.currentTime
      && (r.audio.paused <==> w.audio.paused && !allowed)
    ensures w.isEnabled && !w.isPlaying ==>
      r.audio.paused && r.audio.currentTime == 0 && r.audio.playAttempts == w.audio.playAttempts
    ensures Quiet(r)
    ensures r.(statusText := w.statusText, buttonText := w.buttonText, audio := w.audio) == w
  {
    var u := UpdateUiState(w);
    if !u.isEnabled then
      u.(audio := PauseAndRewind(u.audio))
    else if u.isPlaying then
      u.(audio := Play(u.audio, allowed))
    else
      u.(audio := PauseAndRewind(u.audio))
  }

  /** The constructor: bind the audio handlers, arm both one-shot retries,
      then apply the initial playback state, which issues a play attempt. */
  function Construct(allowed: bool): (r: Widget)
    ensures r.isPlaying && r.isEnabled
    ensures r.audio.playAttempts == 1 && r.audio.currentTime == 0
    ensures r.audio.paused <==> !allowed
    ensures r.display == "flex" && r.statusText == "Playing" && r.buttonText == "Stop"
    ensures !r.errorLabel.shown && r.errorLabel.text == ""
    ensures r.audioListening && r.clickRetry && r.keydownRetry && !r.attached
    ensures UiConsistent(r) && Quiet(r)
  {
    var bound := Created().(audioListening := true);
    var armed := bound.(clickRetry := true, keydownRetry := true);
    ApplyPlaybackState(armed, allowed)
  }

  // ---------------------------------------------------------------------------
  // Public and event-driven transitions

  /** `setEnabled(enabled)`: nothing at all happens when the flag already has
      that value; otherwise the flag and the container's visibility change and
      the playback state is applied again. */
  function SetEnabled(w: Widget, enabled: bool, allowed: bool): (r: Widget)
    ensures w.isEnabled == enabled ==> r == w
    ensures r.isEnabled == enabled
    ensures w.isEnabled != enabled ==> r.display == (if enabled then "flex" else "none")
    ensures w.isEnabled != enabled && !enabled ==> r.audio.paused && r.audio.currentTime == 0
    ensures Quiet(w) ==> Quiet(r)
    ensures w.isEnabled != enabled && enabled && w.isPlaying ==>
      r.audio.playAttempts == w.audio.playAttempts + 1
      && r.audio.currentTime == w.audio.currentTime
      && (r.audio.paused <==> w.audio.paused && !allowed)
    ensures w.isEnabled != enabled && !(enabled && w.isPlaying) ==>
      r.audio.paused && r.audio.currentTime == 0 && r.audio.playAttempts == w.audio.playAttempts
    ensures w.isEnabled != enabled ==>
      r.statusText == StatusText(w.isPlaying) && r.buttonText == ButtonText(w.isPlaying)
    ensures r.isPlaying == w.isPlaying && r.errorLabel == w.errorLabel
    ensures r.clickRetry == w.clickRetry && r.keydownRetry == w.keydownRetry
    ensures r.attached == w.attached && r.audioListening == w.audioListening
  {
    if w.isEnabled == enabled then w
    else ApplyPlaybackState(w.(isEnabled := enabled, display := DisplayFor(enabled)), allowed)
  }

  /** The toggle button's click handler: flip `isPlaying`, apply it. */
  function TogglePlayback(w: Widget, allowed: bool): (r: Widget)
    ensures r.isPlaying == !w.isPlaying && r.isEnabled == w.isEnabled
    ensures r.statusText == (if r.isPlaying then "Playing" else "Paused")
    ensures r.buttonText == (if r.isPlaying then "Stop" else "Play")
    ensures !r.isPlaying || !r.isEnabled ==>
      r.audio.paused && r.audio.currentTime == 0 && r.audio.playAttempts == w.audio.playAttempts
    ensures r.isPlaying && r.isEnabled ==> r.audio.playAttempts == w.audio.playAttempts + 1
    ensures r.display == w.display && r.errorLabel == w.errorLabel
    ensures r.clickRetry == w.clickRetry && r.keydownRetry == w.keydownRetry
    ensures r.attached == w.attached && r.audioListening == w.audioListening
  {
    ApplyPlaybackState(w.(isPlaying := !w.isPlaying), allowed)
  }

  /** The message chosen for `audio.error`: one per recognised code, a generic
      one for any other code and another when there is no error object. */
  function ErrorMessage(err: Option<MediaError>): (m: string)
    ensures m in KnownMessages
    ensures m == "Unknown error" <==> err.None?
    ensures m == "Audio playback error" <==>
      err.Some? && err.value.code !in {MEDIA_ERR_ABORTED, MEDIA_ERR_NETWORK, MEDIA_ERR_DECODE, MEDIA_ERR_SRC_NOT_SUPPORTED}
    ensures m == "Audio loading aborted" <==> err.Some? && err.value.code == MEDIA_ERR_ABORTED
    ensures m == "Network error loading audio" <==> err.Some? && err.value.code == MEDIA_ERR_NETWORK
    ensures m == "Audio decode error" <==> err.Some? && err.value.code == MEDIA_ERR_DECODE
    ensures m == "Audio format not supported or file not found" <==>
      err.Some? && err.value.code == MEDIA_ERR_SRC_NOT_SUPPORTED
  {
    match err
    case None => "Unknown error"
    case Some(e) =>
      if e.code == MEDIA_ERR_ABORTED then "Audio loading aborted"
      else if e.code == MEDIA_ERR_NETWORK then "Network error loading audio"
      else if e.code == MEDIA_ERR_DECODE then "Audio decode error"
      else if e.code == MEDIA_ERR_SRC_NOT_SUPPORTED then "Audio format not supported or file not found"
      else "Audio playback error"
  }

  /** The audio element's `canplay` event: hides and empties the label, while
      the handler is bound. */
  function CanPlay(w: Widget): (r: Widget)
    ensures w.audioListening ==> !r.errorLabel.shown && r.errorLabel.text == ""
    ensures !w.audioListening ==> r == w
    ensures r.(errorLabel := w.errorLabel) == w
  {
    if w.audioListening then w.(errorLabel := ErrorLabel(false, "")) else w
  }

  /** The audio element's `error` event, `err` being `audio.error`: shows the
      label inline with the fixed message, while the handler is bound. */
  function AudioError(w: Widget, err: Option<MediaError>): (r: Widget)
    ensures w.audioListening ==>
      r.errorLabel.shown && r.errorLabel.text == "Error: " + ErrorMessage(err)
    ensures !w.audioListening ==> r == w
    ensures r.(errorLabel := w.errorLabel) == w
  {
    if w.audioListening then w.(errorLabel := ErrorLabel(true, LabelText(err))) else w
  }

  /** The shared retry handler as written: a play attempt exactly when the
      widget wants to play and the audio is paused. It does not look at
      `isEnabled`. */
  function HandleInteraction(w: Widget, allowed: bool): (r: Widget)
    ensures r.audio.playAttempts == w.audio.playAttempts + (if w.isPlaying && w.audio.paused then 1 else 0)
    ensures !(w.isPlaying && w.audio.paused) ==> r == w
    ensures w.isPlaying && w.audio.paused && allowed ==> !r.audio.paused
    ensures r.(audio := w.audio) == w
  {
    if w.isPlaying && w.audio.paused then w.(audio := Play(w.audio, allowed)) else w
  }

  /** The retry handler with the `isEnabled` check it evidently lacks. */
  function HandleInteractionGuarded(w: Widget, allowed: bool): (r: Widget)
    ensures r.audio.playAttempts
      == w.audio.playAttempts + (if w.isEnabled && w.isPlaying && w.audio.paused then 1 else 0)
    ensures !w.isEnabled ==> r == w
    ensures Quiet(w) ==> Quiet(r)
    ensures r.(audio := w.audio) == w
  {
    if w.isEnabled && w.isPlaying && w.audio.paused then w.(audio := Play(w.audio, allowed)) else w
  }

  /** Which retry handler a one-shot registration runs. */
  datatype RetryPolicy = AsWritten | Guarded

  function RunRetry(w: Widget, allowed: bool, policy: RetryPolicy): Widget {
    match policy
    case AsWritten => HandleInteraction(w, allowed)
    case Guarded => HandleInteractionGuarded(w, allowed)
  }

  /** A `click` reaching the window: the `{ once: true }` registration, while
      live, is removed and runs the retry handler. */
  function WindowClick(w: Widget, allowed: bool, policy: RetryPolicy): (r: Widget)
    ensures !r.clickRetry && r.keydownRetry == w.keydownRetry
    ensures !w.clickRetry ==> r == w
    ensures w.clickRetry && policy.AsWritten? ==>
      r.audio.playAttempts == w.audio.playAttempts + (if w.isPlaying && w.audio.paused then 1 else 0)
    ensures r.(audio := w.audio, clickRetry := w.clickRetry) == w
  {
    if w.clickRetry then RunRetry(w.(clickRetry := false), allowed, policy) else w
  }

  /** A `keydown` reaching the window, symmetric to `WindowClick`. */
  function WindowKeydown(w: Widget, allowed: bool, policy: RetryPolicy): (r: Widget)
    ensures !r.keydownRetry && r.clickRetry == w.clickRetry
    ensures !w.keydownRetry ==> r == w
    ensures w.keydownRetry && policy.AsWritten? ==>
      r.audio.playAttempts == w.audio.playAttempts + (if w.isPlaying && w.audio.paused then 1 else 0)
    ensures r.(audio := w.audio, keydownRetry := w.keydownRetry) == w
  {
    if w.keydownRetry then RunRetry(w.(keydownRetry := false), allowed, policy) else w
  }

  /** The browser advancing playback: only a playing element moves. */
  function Progress(w: Widget, position: nat): (r: Widget)
    ensures w.audio.paused ==> r == w
    ensures r.(audio := w.audio) == w
    ensures r.audio.paused == w.audio.paused && r.audio.playAttempts == w.audio.playAttempts
  {
    if w.audio.paused then w else w.(audio := w.audio.(currentTime := position))
  }

  /** `destroy`: unbind the audio handlers, cancel both retries, pause and
      rewind, and leave the parent if there is one. */
  function Destroy(w: Widget): (r: Teardown)
    ensures r.removed <==> w.attached
    ensures !r.after.attached && !r.after.audioListening
    ensures !r.after.clickRetry && !r.after.keydownRetry
    ensures r.after.audio.paused && r.after.audio.currentTime == 0
    ensures r.after.audio.playAttempts == w.audio.playAttempts
    ensures r.after.isPlaying == w.isPlaying && r.after.isEnabled == w.isEnabled
    ensures r.after.display == w.display && r.after.errorLabel == w.errorLabel
    ensures r.after.(audioListening := w.audioListening, clickRetry := w.clickRetry,
                     keydownRetry := w.keydownRetry, audio := w.audio, attached := w.attached) == w
  {
    var unbound := w.(audioListening := false);
    var cancelled := unbound.(clickRetry := false, keydownRetry := false);
    var stopped := cancelled.(audio := PauseAndRewind(cancelled.audio));
    Teardown(stopped.(attached := false), w.attached)
  }
}

=== FILE: music_player_traces.dfy ===
/**
 Properties of the music player that relate several transitions: the
 round trips of single operations, and invariants over arbitrary event
 traces, with the one-shot retry registrations run either as written or
 with the `isEnabled` check they lack.
 */
module MusicPlayerTraces {
  import opened Options
  import MP = MusicPlayer

  /** Every event the widget reacts to after construction; `allowed` is the
      outcome of any play attempt the event issues. */
  datatype Event =
    | SetEnabled(enabled: bool, allowed: bool)
    | TogglePlayback(allowed: bool)
    | CanPlay
    | AudioError(err: Option<MP.MediaError>)
    | WindowClick(allowed: bool)
    | WindowKeydown(allowed: bool)
    | Destroy
    | Progress(position: nat)

  function Step(w: MP.Widget, e: Event, policy: MP.RetryPolicy): MP.Widget {
    match e
    case SetEnabled(enabled, allowed) => MP.SetEnabled(w, enabled, allowed)
    case TogglePlayback(allowed) => MP.TogglePlayback(w, allowed)
    case CanPlay => MP.CanPlay(w)
    case AudioError(err) => MP.AudioError(w, err)
    case WindowClick(allowed) => MP.WindowClick(w, allowed, policy)
    case WindowKeydown(allowed) => MP.WindowKeydown(w, allowed, policy)
    case Destroy => MP.Destroy(w).after
    case Progress(position) => MP.Progress(w, position)
  }

  /** The state after handling `evs` in order. */
  function Run(w: MP.Widget, evs: seq<Event>, policy: MP.RetryPolicy): MP.Widget
    decreases |evs|
  {
    if |evs| == 0 then w else Run(Step(w, evs[0], policy), evs[1..], policy)
  }

  /** How many times the window `click` registration runs its handler. */
  function ClickFirings(w: MP.Widget, evs: seq<Event>, policy: MP.RetryPolicy): nat
    decreases |evs|
  {
    if |evs| == 0 then 0
    else (if evs[0].WindowClick? && w.clickRetry then 1 else 0)
         + ClickFirings(Step(w, evs[0], policy), evs[1..], policy)
  }

  /** How many times the window `keydown` registration runs its handler. */
  function KeydownFirings(w: MP.Widget, evs: seq<Event>, policy: MP.RetryPolicy): nat
    decreases |evs|
  {
    if |evs| == 0 then 0
    else (if evs[0].WindowKeydown? && w.keydownRetry then 1 else 0)
         + KeydownFirings(Step(w, evs[0], policy), evs[1..], policy)
  }

  /** A retry registration fires while the widget is disabled. */
  predicate FiresWhileDisabled(w: MP.Widget, e: Event) {
    !w.isEnabled && ((e.WindowClick? && w.clickRetry) || (e.WindowKeydown? && w.keydownRetry))
  }

  /** How many events of the trace are retry firings on a disabled widget. */
  function DisabledFirings(w: MP.Widget, evs: seq<Event>, policy: MP.RetryPolicy): nat
    decreases |evs|
  {
    if |evs| == 0 then 0
    else (if FiresWhileDisabled(w, evs[0]) then 1 else 0)
         + DisabledFirings(Step(w, evs[0], policy), evs[1..], policy)
  }

  // ---------------------------------------------------------------------------
  // Single operations

  /** Setting the same enabled flag twice is the same as setting it once. */
  lemma SetEnabledIdempotent(w: MP.Widget, enabled: bool, allowed1: bool, allowed2: bool)
    ensures MP.SetEnabled(MP.SetEnabled(w, enabled, allowed1), enabled, allowed2)
         == MP.SetEnabled(w, enabled, allowed1)
  {
  }

  /** From playing and enabled, one toggle stops and rewinds; a second one
      restores the flags and texts and issues a fresh play attempt from the
      start: there is no resume-from-position. */
  lemma ToggleTwice(w: MP.Widget, allowed1: bool, allowed2: bool)
    requires w.isEnabled && w.isPlaying && MP.UiConsistent(w)
    ensures var once := MP.TogglePlayback(w, allowed1);
      && !once.isPlaying && once.statusText == "Paused" && once.buttonText == "Play"
      && once.audio.paused && once.audio.currentTime == 0
      && once.audio.playAttempts == w.audio.playAttempts
    ensures var twice := MP.TogglePlayback(MP.TogglePlayback(w, allowed1), allowed2);
      && twice.(audio := w.audio) == w
      && twice.audio.currentTime == 0
      && twice.audio.playAttempts == w.audio.playAttempts + 1
      && (twice.audio.paused <==> !allowed2)
  {
  }

  /** The cause of a media error as the widget distinguishes them. */
  datatype Cause = Aborted | Network | Decode | SrcNotSupported | OtherCode | NoErrorObject

  function CauseOf(err: Option<MP.MediaError>): Cause {
    if err.None? then NoErrorObject
    else if err.value.code == MP.MEDIA_ERR_ABORTED then Aborted
    else if err.value.code == MP.MEDIA_ERR_NETWORK then Network
    else if err.value.code == MP.MEDIA_ERR_DECODE then Decode
    else if err.value.code == MP.MEDIA_ERR_SRC_NOT_SUPPORTED then SrcNotSupported
    else OtherCode
  }

  /** The message depends on the cause only, and different causes get
      different messages. */
  lemma ErrorMessageIdentifiesCause(a: Option<MP.MediaError>, b: Option<MP.MediaError>)
    ensures MP.ErrorMessage(a) == MP.ErrorMessage(b) <==> CauseOf(a) == CauseOf(b)
  {
  }

  /** The fixed text for each cause. */
  function CauseText(c: Cause): string {
    match c
    case Aborted => "Audio loading aborted"
    case Network => "Network error loading audio"
    case Decode => "Audio decode error"
    case SrcNotSupported => "Audio format not supported or file not found"
    case OtherCode => "Audio playback error"
    case NoErrorObject => "Unknown error"
  }

  /** Each cause gets its own fixed text, and the label shows it after
      "Error: ". */
  lemma ErrorMessageOfCause(err: Option<MP.MediaError>)
    ensures MP.ErrorMessage(err) == CauseText(CauseOf(err))
    ensures MP.LabelText(err) == "Error: " + CauseText(CauseOf(err))
  {
  }

  /** An error followed by `canplay` leaves the label hidden and empty, the
      same as `canplay` alone. */
  lemma CanPlayClearsError(w: MP.Widget, err: Option<MP.MediaError>)
    requires w.audioListening
    ensures MP.CanPlay(MP.AudioError(w, err)) == MP.CanPlay(w)
    ensures !MP.CanPlay(w).errorLabel.shown && MP.CanPlay(w).errorLabel.text == ""
  {
  }

  /** A second `destroy` removes nothing and changes nothing. */
  lemma DestroyTwice(w: MP.Widget)
    ensures !MP.Destroy(MP.Destroy(w).after).removed
    ensures MP.Destroy(MP.Destroy(w).after).after == MP.Destroy(w).after
  {
  }

  // ---------------------------------------------------------------------------
  // One-shot retries

  /** Once a registration is gone, no event brings it back. */
  lemma StepNeverRearms(w: MP.Widget, e: Event, policy: MP.RetryPolicy)
    ensures !w.clickRetry ==> !Step(w, e, policy).clickRetry
    ensures !w.keydownRetry ==> !Step(w, e, policy).keydownRetry
  {
  }

  /** The `click` registration runs its handler at most once in any trace,
      and never once it is gone. */
  lemma {:induction false} ClickFiresAtMostOnce(w: MP.Widget, evs: seq<Event>, policy: MP.RetryPolicy)
    ensures ClickFirings(w, evs, policy) <= 1
    ensures !w.clickRetry ==> ClickFirings(w, evs, policy) == 0
    decreases |evs|
  {
    if |evs| > 0 {
      var next := Step(w, evs[0], policy);
      StepNeverRearms(w, evs[0], policy);
      ClickFiresAtMostOnce(next, evs[1..], policy);
      if evs[0].WindowClick? && w.clickRetry {
        assert !next.clickRetry;
      }
    }
  }

  /** The `keydown` registration runs its handler at most once in any trace,
      and never once it is gone. */
  lemma {:induction false} KeydownFiresAtMostOnce(w: MP.Widget, evs: seq<Event>, policy: MP.RetryPolicy)
    ensures KeydownFirings(w, evs, policy) <= 1
    ensures !w.keydownRetry ==> KeydownFirings(w, evs, policy) == 0
    decreases |evs|
  {
    if |evs| > 0 {
      var next := Step(w, evs[0], policy);
      StepNeverRearms(w, evs[0], policy);
      KeydownFiresAtMostOnce(next, evs[1..], policy);
      if evs[0].WindowKeydown? && w.keydownRetry {
        assert !next.keydownRetry;
      }
    }
  }

  /** After `destroy`, neither registration ever fires. */
  lemma DestroyedNeverRetries(w: MP.Widget, evs: seq<Event>, policy: MP.RetryPolicy)
    ensures ClickFirings(MP.Destroy(w).after, evs, policy) == 0
    ensures KeydownFirings(MP.Destroy(w).after, evs, policy) == 0
  {
    ClickFiresAtMostOnce(MP.Destroy(w).after, evs, policy);
    KeydownFiresAtMostOnce(MP.Destroy(w).after, evs, policy);
  }

  /** Any number of window clicks issues at most one play attempt, and none
      once the click registration is spent. */
  lemma {:induction false} ClicksIssueAtMostOneAttempt(w: MP.Widget, evs: seq<Event>)
    requires forall i :: 0 <= i < |evs| ==> evs[i].WindowClick?
    ensures Run(w, evs, MP.AsWritten).audio.playAttempts <= w.audio.playAttempts + 1
    ensures !w.clickRetry ==> Run(w, evs, MP.AsWritten).audio.playAttempts == w.audio.playAttempts
    decreases |evs|
  {
    if |evs| > 0 {
      var next := Step(w, evs[0], MP.AsWritten);
      assert !next.clickRetry;
      ClicksIssueAtMostOneAttempt(next, evs[1..]);
    }
  }

  /** Autoplay is refused at construction; the first click retries once and
      is refused again, so the audio stays paused; a second click still
      issues no attempt, because the click registration removed itself; the
      keydown registration is independent and retries once more. */
  lemma AutoplayRetryScenario()
    ensures var w0 := MP.Construct(false);
      && w0.audio.paused && w0.audio.playAttempts == 1
      && var w1 := Step(w0, WindowClick(false), MP.AsWritten);
      && w1.audio.playAttempts == 2 && w1.audio.paused && w1.isPlaying
      && var w2 := Step(w1, WindowClick(true), MP.AsWritten);
      && w2.audio.playAttempts == 2 && w2.audio.paused
      && var w3 := Step(w2, WindowKeydown(true), MP.AsWritten);
      && w3.audio.playAttempts == 3 && !w3.audio.paused
  {
  }

  // ---------------------------------------------------------------------------
  // Invariants over traces

  lemma StepKeepsUiConsistent(w: MP.Widget, e: Event, policy: MP.RetryPolicy)
    requires MP.UiConsistent(w)
    ensures MP.UiConsistent(Step(w, e, policy))
  {
    match e
    case AudioError(err) =>
      if w.audioListening {
        var m := MP.ErrorMessage(err);
        assert m in MP.KnownMessages && MP.AudioError(w, err).errorLabel.text == "Error: " + m;
      }
    case _ =>
  }

  /** The displayed state always agrees with the two flags. */
  lemma {:induction false} RunKeepsUiConsistent(w: MP.Widget, evs: seq<Event>, policy: MP.RetryPolicy)
    requires MP.UiConsistent(w)
    ensures MP.UiConsistent(Run(w, evs, policy))
    decreases |evs|
  {
    if |evs| > 0 {
      StepKeepsUiConsistent(w, evs[0], policy);
      RunKeepsUiConsistent(Step(w, evs[0], policy), evs[1..], policy);
    }
  }

  /** "Disabled or stopped means silent" survives every event except a retry
      firing on a disabled widget, and survives that too with the guard. */
  lemma StepKeepsQuiet(w: MP.Widget, e: Event, policy: MP.RetryPolicy)
    requires MP.Quiet(w)
    requires policy.Guarded? || !FiresWhileDisabled(w, e)
    ensures MP.Quiet(Step(w, e, policy))
  {
  }

  /** As written, the invariant holds along every trace in which no retry
      fires while the widget is disabled. */
  lemma {:induction false} RunKeepsQuiet(w: MP.Widget, evs: seq<Event>)
    requires MP.Quiet(w)
    requires DisabledFirings(w, evs, MP.AsWritten) == 0
    ensures MP.Quiet(Run(w, evs, MP.AsWritten))
    decreases |evs|
  {
    if |evs| > 0 {
      StepKeepsQuiet(w, evs[0], MP.AsWritten);
      RunKeepsQuiet(Step(w, evs[0], MP.AsWritten), evs[1..]);
    }
  }

  /** With the guarded retry handler the invariant holds along every trace. */
  lemma {:induction false} GuardedRunKeepsQuiet(w: MP.Widget, evs: seq<Event>)
    requires MP.Quiet(w)
    ensures MP.Quiet(Run(w, evs, MP.Guarded))
    decreases |evs|
  {
    if |evs| > 0 {
      StepKeepsQuiet(w, evs[0], MP.Guarded);
      GuardedRunKeepsQuiet(Step(w, evs[0], MP.Guarded), evs[1..]);
    }
  }

  /** The gap in the retry handler as written: autoplay is refused at
      construction, the widget is disabled (which pauses it), and the next
      click anywhere on the page starts the audio of the hidden widget. */
  lemma RetryWakesDisabledWidget()
    ensures var w := MP.SetEnabled(MP.Construct(false), false, true);
      && MP.Quiet(w) && !w.isEnabled && w.display == "none"
      && var after := Step(w, WindowClick(true), MP.AsWritten);
      && !after.isEnabled && !after.audio.paused && !MP.Quiet(after)
  {
  }

  /** The same sequence with the guarded handler leaves the audio paused. */
  lemma GuardedRetryStaysSilent()
    ensures var w := MP.SetEnabled(MP.Construct(false), false, true);
      && var after := Step(w, WindowClick(true), MP.Guarded);
      && after.audio.paused && MP.Quiet(after) && !after.clickRetry
  {
  }
}

=== FILE: options.dfy ===
/** The nullable references of the overlay layer (`T | null`, an optional
    `MediaError`) are modelled with this conventional Some/None datatype. */
module Options {

  datatype Option<+T> = None | Some(value: T)

}

=== FILE: overlay_controller.dfy ===
/**
 A functional model of the overlay controller (src/ui/OverlayController.ts).

 DOM nodes are natural-number identities; the mount node is represented by
 the sequence of its children, and `known` logs every identity the model has
 created or seen, so that a created element is new to the whole document, and the overlay's parent is the mount node
 exactly when the overlay's identity is among those children. The host
 application is an oracle: `init` receives the value `getDevMode()` returned
 and `handleToggleDevMode` the value `toggleDevMode()` returned, whatever it
 is. The GitHub star button is reduced to its inline `display` and whether it
 has been destroyed; the music player is the model of the MusicPlayer module.
 */
module OverlayController {
  import opened Options
  import MP = MusicPlayer

  /** The dev-mode button: its text content and whether it has class `active`. */
  datatype DevButton = DevButton(text: string, active: bool)

  datatype Controller = Controller(
    devMode: bool,
    mountChildren: seq<nat>,    // children of the mount node, in order
    known: seq<nat>,            // every node identity created or seen so far
    overlay: Option<nat>,       // overlayElement
    hasHeader: bool,            // headerElement is not null
    devButton: Option<DevButton>,
    gitHubDisplay: string,      // inline `display` of the GitHub button
    gitHubDestroyed: bool,
    music: MP.Widget
  )

  /** Result of `destroy`: the new state and whether the overlay was removed
      from the mount node. */
  datatype Destroyed = Destroyed(after: Controller, removedOverlay: bool)

  function GitHubDisplayFor(show: bool): string {
    if show then "inline-flex" else "none"
  }

  function DevButtonText(devMode: bool): string {
    if devMode then "Dev Mode ON" else "Dev Mode"
  }

  /** The overlay currently hangs under the mount node. */
  predicate OverlayMounted(c: Controller) {
    c.overlay.Some? && c.overlay.value in c.mountChildren
  }

  /** The UI is the projection of `devMode`: the music player is enabled, and
      the GitHub button shown, exactly outside dev mode; the dev button, when
      there is one, names and marks the mode; the player's own display agrees
      with its flags. */
  ghost predicate Synced(c: Controller) {
    && MP.UiConsistent(c.music)
    && c.music.isEnabled == !c.devMode
    && c.gitHubDisplay == GitHubDisplayFor(!c.devMode)
    && (c.devButton.Some? ==> c.devButton.value == DevButton(DevButtonText(c.devMode), c.devMode))
  }

  /** What a user sees of the overlay. */
  datatype View = View(musicEnabled: bool, musicDisplay: string, gitHubDisplay: string,
                       devButton: Option<DevButton>)

  function ViewOf(c: Controller): View {
    View(c.music.isEnabled, c.music.display, c.gitHubDisplay, c.devButton)
  }

  /** An identity larger than every node in `nodes`: what
      `document.createElement` returns is a node that did not exist before. */
  function FreshNode(nodes: seq<nat>): (n: nat)
    ensures forall i :: 0 <= i < |nodes| ==> nodes[i] < n
    ensures n !in nodes
    decreases |nodes|
  {
    if |nodes| == 0 then 0
    else
      var rest := FreshNode(nodes[1..]);
      assert forall i :: 1 <= i < |nodes| ==> nodes[i] == nodes[1..][i - 1];
      if nodes[0] < rest then rest else nodes[0] + 1
  }

  /** `removeChild(node)`: the node is gone, every other child stays in order. */
  function RemoveNode(nodes: seq<nat>, node: nat): (r: seq<nat>)
    ensures node !in r
    ensures forall x :: x in nodes && x != node ==> x in r
    ensures forall x :: x in r ==> x in nodes
    ensures |r| <= |nodes|
    ensures node !in nodes ==> r == nodes
    decreases |nodes|
  {
    if |nodes| == 0 then []
    else if nodes[0] == node then RemoveNode(nodes[1..], node)
    else [nodes[0]] + RemoveNode(nodes[1..], node)
  }

  /** Removing a child that occurs once keeps the others in their order. */
  lemma {:induction false} RemoveNodeKeepsOrder(before: seq<nat>, node: nat, after: seq<nat>)
    requires node !in before && node !in after
    ensures RemoveNode(before + [node] + after, node) == before + after
    decreases |before|
  {
    if |before| == 0 {
      assert before + [node] + after == [node] + after;
      assert ([node] + after)[1..] == after;
    } else {
      var s := before + [node] + after;
      assert s[0] == before[0];
      assert s[1..] == before[1..] + [node] + after;
      RemoveNodeKeepsOrder(before[1..], node, after);
      assert before + after == [before[0]] + (before[1..] + after);
    }
  }

  /** The constructor: the music player field initializer runs first (so a
      play attempt is issued), then the GitHub button is created with the
      given inline display; nothing is rendered yet. */
  function Construct(mountChildren: seq<nat>, gitHubDisplay: string, allowed: bool): (r: Controller)
    ensures !r.devMode && r.overlay.None? && !r.hasHeader && r.devButton.None?
    ensures r.mountChildren == mountChildren && r.known == mountChildren
    ensures r.music.isPlaying && r.music.isEnabled && r.music.audio.playAttempts == 1
    ensures MP.UiConsistent(r.music)
  {
    Controller(false, mountChildren, mountChildren, None, false, None, gitHubDisplay, false,
               MP.Construct(allowed))
  }

  /** `toggleGitHubButtonVisibility(show)`. */
  function ToggleGitHubButtonVisibility(c: Controller, show: bool): (r: Controller)
    ensures r.gitHubDisplay == (if show then "inline-flex" else "none")
    ensures r.(gitHubDisplay := c.gitHubDisplay) == c
  {
    c.(gitHubDisplay := GitHubDisplayFor(show))
  }

  /** `updateDevButtonStyle(button, isDevMode)`: class `active` present
      exactly in dev mode; the text is left alone. */
  function UpdateDevButtonStyle(b: DevButton, isDevMode: bool): (r: DevButton)
    ensures r.active <==> isDevMode
    ensures r.text == b.text
  {
    b.(active := isDevMode)
  }

  /** `syncUiState`: project `devMode` onto the music player, the GitHub
      button and, if it exists, the dev button. */
  function SyncUiState(c: Controller, allowed: bool): (r: Controller)
    ensures MP.UiConsistent(c.music) ==> Synced(r)
    ensures r.music.isEnabled == !c.devMode
    ensures r.music.isEnabled != c.music.isEnabled ==>
      r.music.display == (if c.devMode then "none" else "flex")
    ensures r.gitHubDisplay == (if c.devMode then "none" else "inline-flex")
    ensures r.devButton.Some? <==> c.devButton.Some?
    ensures r.devButton.Some? ==>
      r.devButton.value.text == (if c.devMode then "Dev Mode ON" else "Dev Mode")
      && (r.devButton.value.active <==> c.devMode)
    ensures r.music == MP.SetEnabled(c.music, !c.devMode, allowed)
    ensures r.music.isEnabled == c.music.isEnabled ==> r.music == c.music
    ensures r.(music := c.music, gitHubDisplay := c.gitHubDisplay, devButton := c.devButton) == c
  {
    var withMusic := c.(music := MP.SetEnabled(c.music, !c.devMode, allowed));
    var withGitHub := ToggleGitHubButtonVisibility(withMusic, !c.devMode);
    match withGitHub.devButton
    case None => withGitHub
    case Some(b) =>
      var styled := UpdateDevButtonStyle(b, c.devMode);
      withGitHub.(devButton := Some(styled.(text := DevButtonText(c.devMode))))
  }

  /** `render`: build a fresh overlay holding the music player and a header
      with the GitHub and dev buttons, make it the mount node's only child,
      then sync. */
  function Render(c: Controller, allowed: bool): (r: Controller)
    ensures r.overlay.Some? && r.mountChildren == [r.overlay.value]
    ensures r.overlay.value !in c.mountChildren && r.overlay.value !in c.known
    ensures r.known == c.known + c.mountChildren + [r.overlay.value]
    ensures r.music == MP.SetEnabled(c.music.(attached := true), !c.devMode, allowed)
    ensures OverlayMounted(r) && r.hasHeader && r.devButton.Some?
    ensures r.music.attached
    ensures r.devMode == c.devMode && r.music.isEnabled == !c.devMode
    ensures MP.UiConsistent(c.music) ==> Synced(r)
  {
    var node := FreshNode(c.known + c.mountChildren);
    var built := c.(overlay := Some(node), known := c.known + c.mountChildren + [node], hasHeader := true,
                    devButton := Some(DevButton("", false)),
                    music := c.music.(attached := true));
    SyncUiState(built.(mountChildren := [node]), allowed)
  }

  /** `init`: adopt the host's current dev mode, then render. */
  function Init(c: Controller, hostDevMode: bool, allowed: bool): (r: Controller)
    ensures r.devMode == hostDevMode
    ensures r.overlay.Some? && r.mountChildren == [r.overlay.value]
    ensures r.music.isEnabled == !hostDevMode
    ensures r.music == MP.SetEnabled(c.music.(attached := true), !hostDevMode, allowed)
    ensures r.overlay.value !in c.known && r.overlay.value !in c.mountChildren
    ensures MP.UiConsistent(c.music) ==> Synced(r)
  {
    Render(c.(devMode := hostDevMode), allowed)
  }

  /** `handleToggleDevMode`: whatever the host's `toggleDevMode()` returned
      becomes `devMode`, then the UI is synced; the controller never negates
      its own copy. */
  function HandleToggleDevMode(c: Controller, hostAnswer: bool, allowed: bool): (r: Controller)
    ensures r.devMode == hostAnswer && r.music.isEnabled == !hostAnswer
    ensures MP.UiConsistent(c.music) ==> Synced(r)
    ensures r.mountChildren == c.mountChildren && r.overlay == c.overlay && r.known == c.known
    ensures r.music == MP.SetEnabled(c.music, !hostAnswer, allowed)
    ensures hostAnswer == c.devMode && Synced(c) ==> r == c
  {
    SyncUiState(c.(devMode := hostAnswer), allowed)
  }

  /** `destroy`: destroy the music player, then the GitHub button; remove the
      overlay from the mount node only if that is still its parent; drop the
      element references. */
  function Destroy(c: Controller): (r: Destroyed)
    ensures r.removedOverlay <==> OverlayMounted(c)
    ensures r.removedOverlay ==> r.after.mountChildren == RemoveNode(c.mountChildren, c.overlay.value)
    ensures !r.removedOverlay ==> r.after.mountChildren == c.mountChildren
    ensures r.after.overlay.None? && !r.after.hasHeader && r.after.devButton.None?
    ensures r.after.gitHubDestroyed && r.after.music == MP.Destroy(c.music).after
    ensures !r.after.music.attached && !r.after.music.audioListening
    ensures r.after.music.audio.paused && r.after.music.audio.currentTime == 0
    ensures !r.after.music.clickRetry && !r.after.music.keydownRetry
    ensures r.after.devMode == c.devMode
  {
    var music := MP.Destroy(c.music).after;
    var removed := OverlayMounted(c);
    var children := if removed then RemoveNode(c.mountChildren, c.overlay.value) else c.mountChildren;
    Destroyed(
      c.(music := music, gitHubDestroyed := true, mountChildren := children,
         overlay := None, hasHeader := false, devButton := None),
      removed)
  }

  /** Code outside the controller replacing the mount node's children; the
      new children become known identities. */
  function ReplaceMountChildren(c: Controller, children: seq<nat>): (r: Controller)
    ensures r.mountChildren == children
    ensures r.known == c.known + children
    ensures r.(mountChildren := c.mountChildren, known := c.known) == c
  {
    c.(mountChildren := children, known := c.known + children)
  }
}

=== FILE: overlay_traces.dfy ===
/**
 Properties of the overlay controller over several calls: `syncUiState` is a
 pure, idempotent projection of `devMode`; the controller's mode is always
 the host's last answer; a faithful host's double toggle restores the view;
 `destroy` never detaches twice.
 */
module OverlayTraces {
  import MP = MusicPlayer
  import MT = MusicPlayerTraces
  import opened OverlayController

  /** Events reaching an initialised controller: host-driven calls, a foreign
      replacement of the mount node's children, `destroy`, and the embedded
      player's own events. */
  datatype Event =
    | Init(hostDevMode: bool, allowed: bool)
    | ToggleDevMode(hostAnswer: bool, allowed: bool)
    | ReplaceChildren(children: seq<nat>)
    | Destroy
    | Music(e: MT.Event)

  /** One event; `policy` chooses the player's retry handler. */
  function Step(c: Controller, e: Event, policy: MP.RetryPolicy): Controller {
    match e
    case Init(d, allowed) => OverlayController.Init(c, d, allowed)
    case ToggleDevMode(answer, allowed) => HandleToggleDevMode(c, answer, allowed)
    case ReplaceChildren(children) => ReplaceMountChildren(c, children)
    case Destroy => OverlayController.Destroy(c).after
    case Music(me) => c.(music := MT.Step(c.music, me, policy))
  }

  function Run(c: Controller, evs: seq<Event>, policy: MP.RetryPolicy): Controller
    decreases |evs|
  {
    if |evs| == 0 then c else Run(Step(c, evs[0], policy), evs[1..], policy)
  }

  /** Only the controller calls the player's `setEnabled`. */
  predicate FromUsers(evs: seq<Event>) {
    forall i :: 0 <= i < |evs| ==> !(evs[i].Music? && evs[i].e.SetEnabled?)
  }

  /** The dev mode the host reported last in `evs`, or `current` if it never
      answered. */
  function LastHostAnswer(evs: seq<Event>, current: bool): bool
    decreases |evs|
  {
    if |evs| == 0 then current
    else
      var last := evs[|evs| - 1];
      if last.Init? then last.hostDevMode
      else if last.ToggleDevMode? then last.hostAnswer
      else LastHostAnswer(evs[..|evs| - 1], current)
  }

  // ---------------------------------------------------------------------------
  // syncUiState

  /** Two synced controllers in the same mode, both rendered or both not,
      show the same thing. */
  lemma SyncedViewDeterminedByDevMode(a: Controller, b: Controller)
    requires Synced(a) && Synced(b)
    requires a.devMode == b.devMode && a.devButton.Some? == b.devButton.Some?
    ensures ViewOf(a) == ViewOf(b)
  {
  }

  /** Syncing an already synced state changes nothing, whatever the play
      outcome. */
  lemma SyncIdempotent(c: Controller, allowed1: bool, allowed2: bool)
    ensures SyncUiState(SyncUiState(c, allowed1), allowed2) == SyncUiState(c, allowed1)
  {
  }

  /** With a host that really flips its flag, toggling twice restores the
      view and the mode. */
  lemma FaithfulDoubleToggle(c: Controller, allowed1: bool, allowed2: bool)
    requires Synced(c)
    ensures var once := HandleToggleDevMode(c, !c.devMode, allowed1);
      && once.devMode == !c.devMode && ViewOf(once) != ViewOf(c)
      && var twice := HandleToggleDevMode(once, c.devMode, allowed2);
      && twice.devMode == c.devMode && ViewOf(twice) == ViewOf(c)
  {
    var once := HandleToggleDevMode(c, !c.devMode, allowed1);
    var twice := HandleToggleDevMode(once, c.devMode, allowed2);
    SyncedViewDeterminedByDevMode(twice, c);
  }

  /** A host that refuses to flip leaves a synced controller untouched. */
  lemma RefusedToggleChangesNothing(c: Controller, allowed: bool)
    requires Synced(c)
    ensures HandleToggleDevMode(c, c.devMode, allowed) == c
  {
  }

  // ---------------------------------------------------------------------------
  // destroy

  /** A second `destroy` removes nothing from the mount node. */
  lemma DestroyTwice(c: Controller)
    ensures var first := OverlayController.Destroy(c);
      && !OverlayController.Destroy(first.after).removedOverlay
      && OverlayController.Destroy(first.after).after.mountChildren == first.after.mountChildren
  {
  }

  /** After the mount node's children were replaced by others, `destroy`
      leaves them alone. */
  lemma DestroyAfterReplacement(c: Controller, children: seq<nat>)
    requires c.overlay.Some? && c.overlay.value !in children
    ensures !OverlayController.Destroy(ReplaceMountChildren(c, children)).removedOverlay
    ensures OverlayController.Destroy(ReplaceMountChildren(c, children)).after.mountChildren == children
  {
  }

  /** `destroy` takes out only the overlay: the mount node's other children
      keep their order. */
  lemma DestroyKeepsOtherChildren(c: Controller, before: seq<nat>, after: seq<nat>)
    requires c.overlay.Some? && c.mountChildren == before + [c.overlay.value] + after
    requires c.overlay.value !in before && c.overlay.value !in after
    ensures OverlayController.Destroy(c).removedOverlay
    ensures OverlayController.Destroy(c).after.mountChildren == before + after
  {
    RemoveNodeKeepsOrder(before, c.overlay.value, after);
  }

  /** The page's start-up: a new controller, then `init`. The mount node ends
      up holding only a new overlay, the view is the projection of the host's
      mode, and the player has issued only its construction-time attempt: in
      dev mode it is paused and rewound, otherwise it keeps that attempt's
      outcome. */
  lemma ConstructThenInit(mount: seq<nat>, gitHubDisplay: string, allowed1: bool,
                          hostDevMode: bool, allowed2: bool)
    ensures var c := OverlayController.Init(Construct(mount, gitHubDisplay, allowed1), hostDevMode, allowed2);
      && c.devMode == hostDevMode && Synced(c)
      && c.overlay.Some? && c.mountChildren == [c.overlay.value] && c.overlay.value !in mount
      && c.music.attached && c.music.isPlaying
      && (hostDevMode ==> c.music.audio.paused && c.music.audio.currentTime == 0
                          && c.music.audio.playAttempts == 1)
      && (!hostDevMode ==> c.music.audio.playAttempts == 1 && (c.music.audio.paused <==> !allowed1))
  {
  }

  /** Every render creates a new overlay, even when foreign code emptied the
      mount node in between; so when foreign code later puts the first overlay
      back, `destroy` sees that the current overlay is not mounted and leaves
      the mount node alone. */
  lemma StaleOverlayIsNotRemoved(c: Controller, d1: bool, d2: bool, a1: bool, a2: bool)
    ensures var first := OverlayController.Init(c, d1, a1);
      && var emptied := ReplaceMountChildren(first, []);
      && var second := OverlayController.Init(emptied, d2, a2);
      && second.overlay.value != first.overlay.value
      && var restored := ReplaceMountChildren(second, [first.overlay.value]);
      && !OverlayController.Destroy(restored).removedOverlay
      && OverlayController.Destroy(restored).after.mountChildren == [first.overlay.value]
  {
    var first := OverlayController.Init(c, d1, a1);
    var emptied := ReplaceMountChildren(first, []);
    assert first.overlay.value in emptied.known;
  }

  /** A rendered overlay is detached by the first `destroy`, and the mount
      node is left empty. */
  lemma InitThenDestroy(c: Controller, hostDevMode: bool, allowed: bool)
    ensures var d := OverlayController.Destroy(OverlayController.Init(c, hostDevMode, allowed));
      && d.removedOverlay && d.after.mountChildren == []
  {
  }

  // ---------------------------------------------------------------------------
  // Traces

  lemma StepKeepsSynced(c: Controller, e: Event, policy: MP.RetryPolicy)
    requires Synced(c)
    requires !(e.Music? && e.e.SetEnabled?)
    ensures Synced(Step(c, e, policy))
  {
    if e.Music? {
      MT.StepKeepsUiConsistent(c.music, e.e, policy);
    }
  }

  /** Once synced, the overlay stays a projection of `devMode` through any
      sequence of controller calls and user events. */
  lemma {:induction false} RunKeepsSynced(c: Controller, evs: seq<Event>, policy: MP.RetryPolicy)
    requires Synced(c) && FromUsers(evs)
    ensures Synced(Run(c, evs, policy))
    decreases |evs|
  {
    if |evs| > 0 {
      StepKeepsSynced(c, evs[0], policy);
      assert FromUsers(evs[1..]) by {
        forall i | 0 <= i < |evs[1..]|
          ensures !(evs[1..][i].Music? && evs[1..][i].e.SetEnabled?)
        {
          assert evs[1..][i] == evs[i + 1];
        }
      }
      RunKeepsSynced(Step(c, evs[0], policy), evs[1..], policy);
    }
  }

  lemma StepKeepsMusicQuiet(c: Controller, e: Event)
    requires MP.Quiet(c.music)
    ensures MP.Quiet(Step(c, e, MP.Guarded).music)
  {
    if e.Music? {
      MT.StepKeepsQuiet(c.music, e.e, MP.Guarded);
    }
  }

  /** With the guarded retry handler, dev mode (a disabled player) is silent
      through any sequence of events, user clicks included. */
  lemma {:induction false} GuardedRunKeepsMusicQuiet(c: Controller, evs: seq<Event>)
    requires MP.Quiet(c.music)
    ensures MP.Quiet(Run(c, evs, MP.Guarded).music)
    decreases |evs|
  {
    if |evs| > 0 {
      StepKeepsMusicQuiet(c, evs[0]);
      GuardedRunKeepsMusicQuiet(Step(c, evs[0], MP.Guarded), evs[1..]);
    }
  }

  /** Only the host's answers move `devMode`. */
  lemma StepDevMode(c: Controller, e: Event, policy: MP.RetryPolicy)
    ensures Step(c, e, policy).devMode
         == (if e.Init? then e.hostDevMode else if e.ToggleDevMode? then e.hostAnswer else c.devMode)
  {
  }

  /** The controller's mode is always the host's last answer: it never
      derives the mode on its own. */
  lemma {:induction false} RunAdoptsHostAnswer(c: Controller, evs: seq<Event>, policy: MP.RetryPolicy)
    ensures Run(c, evs, policy).devMode == LastHostAnswer(evs, c.devMode)
    decreases |evs|
  {
    if |evs| > 0 {
      var front := evs[..|evs| - 1];
      var last := evs[|evs| - 1];
      RunAdoptsHostAnswer(c, front, policy);
      assert evs == front + [last];
      RunSplit(c, front, last, policy);
      StepDevMode(Run(c, front, policy), last, policy);
    }
  }

  /** Running a trace with one more event is one more step. */
  lemma {:induction false} RunSplit(c: Controller, evs: seq<Event>, e: Event, policy: MP.RetryPolicy)
    ensures Run(c, evs + [e], policy) == Step(Run(c, evs, policy), e, policy)
    decreases |evs|
  {
    if |evs| == 0 {
      assert evs + [e] == [e];
    } else {
      assert (evs + [e])[1..] == evs[1..] + [e];
      RunSplit(Step(c, evs[0], policy), evs[1..], e, policy);
    }
  }
}
